=== FILE: README.md ===
# LoL esports Telegram bot — model of the match analysis and its pure helpers

The bot lists live professional League of Legends matches of five main leagues
(LCK, LPL, LEC, LCS, CBLOL) and, on request, analyses the current game from
the live-stats feed: gold, kills, towers, dragons and barons of the blue and red
teams, a blue/red win probability and an advantage label. This project models
the decision logic of `lol_esports_telegram_bot.py` as pure Dafny functions and
proves its properties:

- `Analyzer` — `MatchAnalyzer.analyze`: the last frame of the payload, the ten
  counters with their defaults, the gold difference, the score and win
  probability, and the advantage label (module `Advantage`).
- `LiveFilter` — the filter in `get_live_matches`: events in progress whose
  league slug contains a main-league key, case-insensitively.
- `Handlers` — the callback data `analyze_<id>` and its parsing, the `/live`
  keyboard over the first 10 matches, and the search for the game in progress.
- `Json`, `Text`, `Wrappers`, `Saturation` — decoded JSON values with Python's
  `dict.get` and truthiness, `str.lower` / `in` / `str.replace`, `Option`, and the
  properties of `math.tanh` that the probability relies on.

Python exceptions raised inside the source's `try` blocks (a `.get` on something
that is not a dict, `.lower()` on a non-string, subtraction of non-integers,
indexing a non-list) are modelled as the `None` result those blocks return.

`math.tanh` is a parameter `tanh: real -> real` of the analysis. Every probability
property assumes only `Saturating(tanh)`: bounded by 1 in absolute value, odd and
monotone. `Saturation.SoftsignSaturating` proves that x / (1 + |x|) meets that
hypothesis, so it can be satisfied.

Facts about the analysis worth stating plainly:

- A frame that has no team objects is analysed as a 50/50 balanced game with all
  counters 0 (`Analyzer.EmptyFrameIsEven`). So is a frame whose team objects hold
  explicit zeros: its counters are read as 0 (`Analyzer.AnalyzeFrameSpec`) and equal
  counters give 50/50 and Balanced (`Analyzer.EvenGameEvenOdds`).
- Each counter is read from one key of `blueTeam`/`redTeam`
  (`totalGold`, `totalKills`, `towersDestroyed`, `dragonsKilled`, `baronsKilled`);
  a present 0 counts as 0.
- A gold difference of exactly 3000 is a lead, not dominance, because the test at
  line 167 is `gold_diff > 3000` (`Analyzer.ThreeThousandIsALead`).
- Equal gold and towers alone do not give even odds, because the score at line 160
  also counts kills; `Analyzer.EvenGameEvenOdds` therefore requires equal kills too.
  Even odds do not need equal gold either: one extra kill offsets a 2500 gold deficit
  in the score (`Analyzer.KillOffsetsGold`).

## Model

| member | source | states |
|---|---|---|
| `Analyzer.Analyze` | lol_esports_telegram_bot.py:126-131 | no result unless `frames` is a non-empty list; otherwise the analysis of its last element |
| `Analyzer.NoFramesNoAnalysis` | lol_esports_telegram_bot.py:127-129 | a missing `frames` key or an empty frame list gives None |
| `Analyzer.OnlyLastFrameMatters` | lol_esports_telegram_bot.py:131 | frames before the last one have no effect on the result |
| `Analyzer.AnalyzeFrame` | lol_esports_telegram_bot.py:134-191 | gold difference is the blue minus the red `totalGold` (0 when missing), red probability is 100 minus blue, the label classifies the gold difference |
| `Analyzer.AnalyzeFrameSpec` | lol_esports_telegram_bot.py:134-195 | a result exactly for well-typed frames; each of the ten reported counters equals the frame's value, or 0 when the team object or the key is missing |
| `Analyzer.ReadSideSpec` | lol_esports_telegram_bot.py:138-151 | one team is read exactly when it is a dict whose gold, kills and towers are integers when present; counters default to 0, dragons and barons pass through unchanged |
| `Analyzer.WinProbabilityBounds` | lol_esports_telegram_bot.py:160-162 | blue and red probabilities lie in [0, 100] for every score |
| `Analyzer.WinProbabilityAtParity` | lol_esports_telegram_bot.py:160-161 | a zero score gives exactly 50 |
| `Analyzer.WinProbabilityMirror` | lol_esports_telegram_bot.py:160-162 | negating the score turns blue's probability into red's |
| `Analyzer.WinProbabilityMonotone` | lol_esports_telegram_bot.py:160-161 | a larger gold, tower or kill difference never lowers blue's probability |
| `Analyzer.AnalysisProbabilities` | lol_esports_telegram_bot.py:160-162 | every analysis has both probabilities in [0, 100], summing to 100 |
| `Analyzer.EvenGameEvenOdds` | lol_esports_telegram_bot.py:157-174 | equal gold, towers and kills give gold difference 0, 50/50 and a balanced label |
| `Analyzer.SwapTeamsMirrors` | lol_esports_telegram_bot.py:134-174 | exchanging `blueTeam` and `redTeam` swaps the sides, negates the gold difference, exchanges the probabilities and mirrors the label |
| `Analyzer.CompareMirrors` | lol_esports_telegram_bot.py:157-174 | the comparison of (red, blue) is the mirror of the comparison of (blue, red) |
| `Analyzer.EmptyFrameIsEven` | lol_esports_telegram_bot.py:134-191 | any frame dict without `blueTeam` and `redTeam` gives all-zero counters, 50/50 and Balanced |
| `Analyzer.KillOffsetsGold` | lol_esports_telegram_bot.py:160 | a 2500 gold deficit and one extra kill make a score of exactly 0 |
| `Analyzer.ThreeThousandIsALead` | lol_esports_telegram_bot.py:165-172 | 15000 against 12000 gold is a 3000 blue lead, not dominance |
| `Advantage.Classify` | lol_esports_telegram_bot.py:165-174 | Balanced iff abs(d) < 1000, blue dominant iff d > 3000, red dominant iff d < -3000, leading for the rest by sign; the magnitude is abs(d) |
| `Advantage.ClassifyMirror` | lol_esports_telegram_bot.py:165-174 | negating d swaps blue and red labels with the same magnitude, Balanced stays |
| `Advantage.ClassifySign` | lol_esports_telegram_bot.py:165-174 | a blue label iff d >= 1000, a red label iff d <= -1000 |
| `Advantage.ClassifyMonotone` | lol_esports_telegram_bot.py:165-174 | a larger gold difference never moves the label towards red |
| `Advantage.ClassifyBoundaries` | lol_esports_telegram_bot.py:165-174 | 999 Balanced, 1000 and 3000 leading, 3001 dominant, on both sides |
| `Saturation.SaturatingAtZero` | lol_esports_telegram_bot.py:161 | the tanh hypothesis implies tanh(0) = 0 |
| `Saturation.SoftsignSaturating` | lol_esports_telegram_bot.py:161 | a function meeting the tanh hypothesis exists |
| `Text.ContainsIsSubstring` | lol_esports_telegram_bot.py:75 | the search used for `in` agrees with substring occurrence |
| `Text.RemoveAllAbsent` | lol_esports_telegram_bot.py:276 | `replace` leaves a string without the pattern unchanged |
| `Text.RemoveAllShrinks` | lol_esports_telegram_bot.py:276 | `replace` with '' never lengthens, and shortens every string containing the pattern |
| `LiveFilter.IsMainSlugSpec` | lol_esports_telegram_bot.py:34-40 | the lowered `MAIN_LEAGUES` keys are exactly lck, lpl, lec, lcs, cblol, matched as substrings of the lowered slug |
| `LiveFilter.VerdictSpec` | lol_esports_telegram_bot.py:66-80 | an event is kept iff in progress with a main-league slug; the loop raises iff the event is not a dict, or is in progress with a non-dict league or non-string slug |
| `LiveFilter.FilterMainRaises` | lol_esports_telegram_bot.py:66-86 | the filter fails exactly when some event is malformed |
| `LiveFilter.FilterMainOrdered` | lol_esports_telegram_bot.py:66-82 | the kept events are live main-league events, an order-preserving subsequence of the input |
| `LiveFilter.FilterMainComplete` | lol_esports_telegram_bot.py:66-82 | every live main-league event is kept as many times as it occurs, others never |
| `LiveFilter.FilterMainSpec` | lol_esports_telegram_bot.py:66-82 | the four filter properties together, including that each qualifying input event is in the output |
| `LiveFilter.LiveMatchesOnError` | lol_esports_telegram_bot.py:83-86 | one malformed event makes the call return no events |
| `Handlers.CallbackRoundTrip` | lol_esports_telegram_bot.py:256-276 | parsing the data `analyze_<id>` gives back the id iff the id does not contain `analyze_`; the data always starts with `analyze_` |
| `Handlers.TaggedIdIsNotRecovered` | lol_esports_telegram_bot.py:276 | the id `analyze_7` comes back as `7` |
| `Handlers.ListEntrySpec` | lol_esports_telegram_bot.py:239-258 | a match gets a button iff it has at least two teams whose first two are dicts; fewer than two teams skip it; anything else raises |
| `Handlers.ListButtonsRaises` | lol_esports_telegram_bot.py:239-269 | the listing fails exactly when one iteration raises |
| `Handlers.ListButtonsExact` | lol_esports_telegram_bot.py:239-258 | the buttons are exactly those of the two-team matches, one per match, in match order |
| `Handlers.ListButtonsCount` | lol_esports_telegram_bot.py:239-258 | one button per match with two teams |
| `Handlers.ListButtonsComplete` | lol_esports_telegram_bot.py:239-258 | every match with two teams gets its button |
| `Handlers.ListButtonsSound` | lol_esports_telegram_bot.py:239-258 | every button comes from a match with two teams, with its team codes ('T1'/'T2' by default) and id |
| `Handlers.ListingSpec` | lol_esports_telegram_bot.py:239-269 | at most 10 buttons: exactly one per match with two teams among the first 10, in their order, or the error message when one of those 10 raises |
| `Handlers.CountListedBound` | lol_esports_telegram_bot.py:239-244 | no more buttons than matches considered |
| `Handlers.ListingIgnoresTail` | lol_esports_telegram_bot.py:239 | matches after the tenth never change the keyboard |
| `Handlers.FirstInProgressIn` | lol_esports_telegram_bot.py:297 | the first game whose state is `inProgress`, after only dicts not in progress; not found iff every game is such a dict; raises iff a non-dict comes first |
| `Handlers.FirstInProgress` | lol_esports_telegram_bot.py:290-297 | a non-list `games` never yields a game: empty dicts and strings give none found, the rest raise |
| `Analyzer.Score` | lol_esports_telegram_bot.py:160 | computes the score from the gold, tower and kill differences over 50000, 11 and 20; its sign symmetry is `Analyzer.ScoreNegates`, its monotonicity is in `Analyzer.WinProbabilityMonotone` |
| `Analyzer.BlueWinProbability` | lol_esports_telegram_bot.py:161 | computes blue's probability from the score; bounds, parity, mirror and monotonicity are `Analyzer.WinProbabilityBounds`, `WinProbabilityAtParity`, `WinProbabilityMirror`, `WinProbabilityMonotone` |
| `Analyzer.ReadSide` | lol_esports_telegram_bot.py:138-151 | reads one team's five counters with 0 defaults, failing on a non-dict or a non-integer scored counter; stated by `Analyzer.ReadSideSpec` |
| `Analyzer.ReadTeam` | lol_esports_telegram_bot.py:134-151 | looks up one team object (empty dict when missing) and reads it; stated through `Analyzer.AnalyzeFrameSpec` and `Analyzer.SwapTeamsMirrors` |
| `Analyzer.Compare` | lol_esports_telegram_bot.py:157-174 | gold difference, probabilities and label from two read sides; stated by `Analyzer.CompareMirrors`, `Analyzer.AnalysisProbabilities` and `Analyzer.SwapTeamsMirrors` |
| `Text.Lower` | lol_esports_telegram_bot.py:75 | ASCII lower-casing of the slug and the league keys; used by `LiveFilter.IsMainSlugSpec` |
| `Text.Contains` | lol_esports_telegram_bot.py:75 | the substring test of the slug match; equivalence with substring occurrence is `Text.ContainsIsSubstring` |
| `Text.RemoveAll` | lol_esports_telegram_bot.py:276 | deletes the non-overlapping occurrences of a pattern from the left; stated by `Text.RemoveAllAbsent` and `Text.RemoveAllShrinks` |
| `LiveFilter.IsMainSlug` | lol_esports_telegram_bot.py:74-77 | whether a lowered main-league key occurs in the lowered slug; stated by `LiveFilter.IsMainSlugSpec` |
| `LiveFilter.Verdict` | lol_esports_telegram_bot.py:67-80 | keep, drop or raise for one event; stated by `LiveFilter.VerdictSpec` |
| `LiveFilter.FilterMain` | lol_esports_telegram_bot.py:66-82 | the filter loop over all events, failing when one event raises; stated by `LiveFilter.FilterMainRaises`, `FilterMainOrdered`, `FilterMainComplete` |
| `LiveFilter.LiveMatches` | lol_esports_telegram_bot.py:66-86 | the filtered list, or `[]` when the loop raised; stated by `LiveFilter.LiveMatchesOnError` and the filter lemmas |
| `Handlers.CallbackData` | lol_esports_telegram_bot.py:256 | the callback data `analyze_` followed by the id; round trip in `Handlers.CallbackRoundTrip` |
| `Handlers.ParseCallback` | lol_esports_telegram_bot.py:276 | the id recovered by deleting every `analyze_`; round trip in `Handlers.CallbackRoundTrip`, counterexample in `Handlers.TaggedIdIsNotRecovered` |
| `Handlers.ListEntry` | lol_esports_telegram_bot.py:239-258 | button, skip or raise for one match; stated by `Handlers.ListEntrySpec` |
| `Handlers.ListButtons` | lol_esports_telegram_bot.py:239-258 | the listing loop over the considered matches; stated by `Handlers.ListButtonsExact` and `Handlers.ListButtonsRaises` |
| `Handlers.Listing` | lol_esports_telegram_bot.py:239-269 | the `/live` keyboard over the first 10 matches; stated by `Handlers.ListingSpec` and `Handlers.ListingIgnoresTail` |
| `Json.Truthy` | lol_esports_telegram_bot.py:128 | Python truthiness, used for `not frames`; stated through `Analyzer.Analyze` and `Analyzer.NoFramesNoAnalysis` |
| `Json.Get` | lol_esports_telegram_bot.py:134-151 | `dict.get` with a default, failing on a non-dict; stated through `Analyzer.AnalyzeFrameSpec`, `Analyzer.ReadSideSpec` and `LiveFilter.VerdictSpec` |
| `Handlers.Len` | lol_esports_telegram_bot.py:244 | `len` of the teams value, defined for strings, lists and dicts; stated through `Handlers.ListEntrySpec` |
| `Handlers.Item` | lol_esports_telegram_bot.py:245-246 | the first and second team entries, only a list item being usable as a dict; stated through `Handlers.ListEntrySpec` |

## Left out

- HTTP and the aiohttp session (`EsportsAPI`, lines 42-119 apart from the filter): I/O. The filter
  starts from the decoded `events` list.
- Telegram handlers, message text, Markdown, keyboards and `main`: UI and async plumbing. Only the
  callback data, the listing loop and the game search are modelled. Buttons record the two team
  codes and the raw event id, not the label text.
- `str()` of a non-string event id in `f"analyze_{event_id}"`, for example `None` for a missing id:
  `CallbackData` takes the id as a string.
- Analyzer.AnalyzeFrameSpec: promises a result for every well-typed frame. The source divides Python
  integers with true division at line 160, which raises `OverflowError` once a quotient is beyond the
  float range (a difference above about 10^308 times its scale); the `except` at line 193 then gives
  None. The model has no such case, because its arithmetic is exact.
- Saturation.Saturating: asks only for non-strict monotonicity, which the constant 0 also meets, so
  the model does not show that a larger lead strictly raises the probability.
- Floating point: the score and probabilities are exact reals. `math.tanh` is any `Saturating`
  function, and IEEE rounding is not modelled.
- The thousands-separated text of the advantage message: the label is an enum plus its magnitude.
- JSON booleans and floats are not part of `Json`. Python would treat them as numbers in the
  arithmetic.
- Unicode `str.lower()`: only ASCII letters are lowered.
- Credentials, URLs and headers (lines 21-31).

=== FILE: advantage.dfy ===
/** The advantage summary of `MatchAnalyzer.analyze`: five buckets of the gold difference. */
module Advantage {

  /** Below this absolute gold difference the game is balanced. */
  const BalancedBand: int := 1000
  /** Above this absolute gold difference the leading side is dominating. */
  const DominantBand: int := 3000

  /** The label, with the magnitude `abs(gold_diff)` the message prints. */
  datatype Label =
    | Balanced
    | BlueLeading(lead: nat)
    | BlueDominant(lead: nat)
    | RedLeading(lead: nat)
    | RedDominant(lead: nat)

  function Abs(d: int): nat {
    if d < 0 then -d else d
  }

  /** The if/elif chain over `gold_diff`, checked in the source's order. */
  function Classify(d: int): (r: Label)
    ensures r.Balanced? <==> -BalancedBand < d < BalancedBand
    ensures r.BlueLeading? <==> BalancedBand <= d <= DominantBand
    ensures r.BlueDominant? <==> DominantBand < d
    ensures r.RedLeading? <==> -DominantBand <= d <= -BalancedBand
    ensures r.RedDominant? <==> d < -DominantBand
    ensures !r.Balanced? ==> r.lead == Abs(d) && r.lead >= BalancedBand
  {
    if Abs(d) < BalancedBand then Balanced
    else if d > DominantBand then BlueDominant(d)
    else if d < -DominantBand then RedDominant(-d)
    else if d > 0 then BlueLeading(d)
    else RedLeading(-d)
  }

  /** The same verdict seen from the other side of the map. */
  function Mirror(l: Label): Label {
    match l
    case Balanced => Balanced
    case BlueLeading(n) => RedLeading(n)
    case BlueDominant(n) => RedDominant(n)
    case RedLeading(n) => BlueLeading(n)
    case RedDominant(n) => BlueDominant(n)
  }

  /** Position of a label on the axis from red dominance to blue dominance. */
  function Rank(l: Label): int {
    match l
    case RedDominant(_) => -2
    case RedLeading(_) => -1
    case Balanced => 0
    case BlueLeading(_) => 1
    case BlueDominant(_) => 2
  }

  /** Negating the gold difference swaps colours and keeps the magnitude. */
  lemma ClassifyMirror(d: int)
    ensures Classify(-d) == Mirror(Classify(d))
    ensures Rank(Classify(-d)) == -Rank(Classify(d))
  {
  }

  /** Every non-balanced label names the side whose gold is ahead. */
  lemma ClassifySign(d: int)
    ensures Rank(Classify(d)) > 0 <==> d >= BalancedBand
    ensures Rank(Classify(d)) < 0 <==> d <= -BalancedBand
  {
  }

  /** A larger blue gold lead never moves the label towards red. */
  lemma ClassifyMonotone(d1: int, d2: int)
    requires d1 <= d2
    ensures Rank(Classify(d1)) <= Rank(Classify(d2))
  {
  }

  /** The thresholds: 999 is balanced, 1000 and 3000 are leads, 3001 dominates. */
  lemma ClassifyBoundaries()
    ensures Classify(999) == Balanced && Classify(-999) == Balanced
    ensures Classify(1000) == BlueLeading(1000) && Classify(-1000) == RedLeading(1000)
    ensures Classify(3000) == BlueLeading(3000) && Classify(-3000) == RedLeading(3000)
    ensures Classify(3001) == BlueDominant(3001) && Classify(-3001) == RedDominant(3001)
  {
  }
}

=== FILE: analyzer.dfy ===
/**
 * `MatchAnalyzer.analyze`: from one live-stats payload to a comparison of the two
 * teams, a win probability and an advantage label. Python exceptions raised inside
 * its `try` block are the `None` result, as in the source.
 */
module Analyzer {
  import opened Wrappers
  import opened Json
  import opened Saturation
  import opened Advantage

  datatype Team = Blue | Red

  /** The five counters read from each team object. */
  datatype Stat = Gold | Kills | Towers | Dragons | Barons

  function TeamKey(t: Team): string {
    match t
    case Blue => "blueTeam"
    case Red => "redTeam"
  }

  function StatKey(s: Stat): string {
    match s
    case Gold => "totalGold"
    case Kills => "totalKills"
    case Towers => "towersDestroyed"
    case Dragons => "dragonsKilled"
    case Barons => "baronsKilled"
  }

  function Other(t: Team): Team {
    match t
    case Blue => Red
    case Red => Blue
  }

  /** Gold, kills and towers are subtracted; dragons and barons are only reported. */
  predicate IsScored(s: Stat) {
    s.Gold? || s.Kills? || s.Towers?
  }

  /** One team's counters; dragons and barons are copied through whatever their JSON type. */
  datatype Side = Side(gold: int, kills: int, towers: int, dragons: Json, barons: Json) {
    function Counter(s: Stat): Json {
      match s
      case Gold => JInt(gold)
      case Kills => JInt(kills)
      case Towers => JInt(towers)
      case Dragons => dragons
      case Barons => barons
    }
  }

  const ZeroSide: Side := Side(0, 0, 0, JInt(0), JInt(0))

  /** The dict `analyze` returns, with the advantage text reduced to its label. */
  datatype Analysis = Analysis(
    blue: Side,
    red: Side,
    goldDiff: int,
    blueProb: real,
    redProb: real,
    advantage: Label)
  {
    function SideOf(t: Team): Side {
      match t
      case Blue => blue
      case Red => red
    }
  }

  /** Divisors that bring a late-game gold, tower and kill lead to about 1. */
  const GoldScale: real := 50000.0
  const TowerScale: real := 11.0
  const KillScale: real := 20.0

  function Score(goldDiff: int, towerDiff: int, killDiff: int): real {
    goldDiff as real / GoldScale + towerDiff as real / TowerScale + killDiff as real / KillScale
  }

  /** Fifty points plus fifty times tanh of twice the score; `tanh` is supplied by the caller. */
  function BlueWinProbability(score: real, tanh: real -> real): real {
    50.0 + 50.0 * tanh(score * 2.0)
  }

  /** Reads the five counters of one team object, each defaulting to 0, and fails where the arithmetic would. */
  function ReadSide(team: Json): Option<Side> {
    var gold :- Get(team, StatKey(Gold), JInt(0));
    var kills :- Get(team, StatKey(Kills), JInt(0));
    var towers :- Get(team, StatKey(Towers), JInt(0));
    var dragons :- Get(team, StatKey(Dragons), JInt(0));
    var barons :- Get(team, StatKey(Barons), JInt(0));
    if gold.JInt? && kills.JInt? && towers.JInt? then
      Some(Side(gold.i, kills.i, towers.i, dragons, barons))
    else
      None
  }

  /** What the frame stores for one counter of one team, if it stores anything. */
  function RawCounter(latest: Json, t: Team, s: Stat): Option<Json> {
    match Field(latest, TeamKey(t))
    case None => None
    case Some(team) => Field(team, StatKey(s))
  }

  /** The integer a counter contributes: its value, or 0 when it is missing. */
  function RawInt(latest: Json, t: Team, s: Stat): int {
    match RawCounter(latest, t, s)
    case Some(JInt(n)) => n
    case _ => 0
  }

  /**
   * The frame is a dict, each team entry it has is a dict, and every scored counter
   * it has is an integer: exactly the frames `analyze` does not raise on.
   */
  ghost predicate WellTyped(latest: Json) {
    && latest.JObj?
    && (forall t: Team :: Field(latest, TeamKey(t)).Some? ==> Field(latest, TeamKey(t)).value.JObj?)
    && (forall t: Team, s: Stat ::
          IsScored(s) && RawCounter(latest, t, s).Some? ==> RawCounter(latest, t, s).value.JInt?)
  }

  /** Reads one team of the frame; a missing team object reads as the empty dict. */
  function ReadTeam(latest: Json, t: Team): Option<Side> {
    var team :- Get(latest, TeamKey(t), EmptyObj);
    ReadSide(team)
  }

  /** The arithmetic of `analyze` once both sides are read. */
  function Compare(blue: Side, red: Side, tanh: real -> real): Analysis {
    var goldDiff := blue.gold - red.gold;
    var score := Score(goldDiff, blue.towers - red.towers, blue.kills - red.kills);
    var blueProb := BlueWinProbability(score, tanh);
    Analysis(blue, red, goldDiff, blueProb, 100.0 - blueProb, Classify(goldDiff))
  }

  /** The body of `analyze` from `latest = frames[-1]` on. */
  function AnalyzeFrame(latest: Json, tanh: real -> real): (r: Option<Analysis>)
    ensures r.Some? ==> r.value.goldDiff == RawInt(latest, Blue, Gold) - RawInt(latest, Red, Gold)
    ensures r.Some? ==> r.value.redProb == 100.0 - r.value.blueProb
    ensures r.Some? ==> r.value.advantage == Classify(r.value.goldDiff)
  {
    var blue :- ReadTeam(latest, Blue);
    var red :- ReadTeam(latest, Red);
    Some(Compare(blue, red, tanh))
  }

  /** `stats['frames']` exists and is a non-empty list. */
  ghost predicate HasFrames(stats: Json) {
    && Field(stats, "frames").Some?
    && Field(stats, "frames").value.JList?
    && |Field(stats, "frames").value.items| > 0
  }

  ghost function LastFrame(stats: Json): Json
    requires HasFrames(stats)
  {
    var fs := Field(stats, "frames").value.items;
    fs[|fs| - 1]
  }

  /** `MatchAnalyzer.analyze(stats)`. */
  function Analyze(stats: Json, tanh: real -> real): (r: Option<Analysis>)
    ensures !HasFrames(stats) ==> r.None?
    ensures HasFrames(stats) ==> r == AnalyzeFrame(LastFrame(stats), tanh)
  {
    var frames :- Get(stats, "frames", JList([]));
    if !Truthy(frames) then None
    else
      match frames
      case JList(fs) => AnalyzeFrame(fs[|fs| - 1], tanh)
      // frames[-1] of a string is a string, which has no .get; of a dict it is a KeyError
      case _ => None
  }

  // ----- reading the frame -----

  /** `ReadSide` succeeds exactly on a dict whose scored counters, when present, are integers. */
  lemma ReadSideSpec(team: Json)
    ensures ReadSide(team).Some? <==>
      team.JObj? && forall s: Stat :: IsScored(s) && Field(team, StatKey(s)).Some? ==> Field(team, StatKey(s)).value.JInt?
    ensures ReadSide(team).Some? ==>
      forall s: Stat :: ReadSide(team).value.Counter(s) == Field(team, StatKey(s)).GetOr(JInt(0))
  {
    if team.JObj? && ReadSide(team).None? {
      var s: Stat :| IsScored(s) && Field(team, StatKey(s)).Some? && !Field(team, StatKey(s)).value.JInt? by {
        if Field(team, StatKey(Gold)).Some? && !Field(team, StatKey(Gold)).value.JInt? {
        } else if Field(team, StatKey(Kills)).Some? && !Field(team, StatKey(Kills)).value.JInt? {
          assert IsScored(Kills);
        } else {
          assert IsScored(Towers);
        }
      }
    }
  }

  /**
   * `analyze` returns a result exactly on well-typed frames, and every one of the ten
   * counters it reports is the frame's value, or 0 when the team object or the key
   * is missing.
   */
  lemma AnalyzeFrameSpec(latest: Json, tanh: real -> real)
    ensures AnalyzeFrame(latest, tanh).Some? <==> WellTyped(latest)
    ensures AnalyzeFrame(latest, tanh).Some? ==>
      forall t: Team, s: Stat ::
        AnalyzeFrame(latest, tanh).value.SideOf(t).Counter(s) == RawCounter(latest, t, s).GetOr(JInt(0))
  {
    if latest.JObj? {
      forall t: Team ensures Get(latest, TeamKey(t), EmptyObj) == Some(Field(latest, TeamKey(t)).GetOr(EmptyObj)) {
      }
      var blueTeam := Field(latest, TeamKey(Blue)).GetOr(EmptyObj);
      var redTeam := Field(latest, TeamKey(Red)).GetOr(EmptyObj);
      ReadSideSpec(blueTeam);
      ReadSideSpec(redTeam);
      assert forall s :: Field(EmptyObj, s).None?;
      if AnalyzeFrame(latest, tanh).Some? {
        assert WellTyped(latest) by {
          forall t: Team, s: Stat | IsScored(s) && RawCounter(latest, t, s).Some?
            ensures RawCounter(latest, t, s).value.JInt?
          {
            match t
            case Blue =>
            case Red =>
          }
        }
      }
      if WellTyped(latest) {
        assert Field(latest, TeamKey(Blue)).Some? ==> blueTeam.JObj?;
        assert Field(latest, TeamKey(Red)).Some? ==> redTeam.JObj?;
        forall s: Stat | IsScored(s) && Field(blueTeam, StatKey(s)).Some?
          ensures Field(blueTeam, StatKey(s)).value.JInt?
        {
          assert RawCounter(latest, Blue, s).Some?;
        }
        forall s: Stat | IsScored(s) && Field(redTeam, StatKey(s)).Some?
          ensures Field(redTeam, StatKey(s)).value.JInt?
        {
          assert RawCounter(latest, Red, s).Some?;
        }
      }
    }
  }

  /** With no frames, or a missing `frames` key, there is no analysis. */
  lemma NoFramesNoAnalysis(stats: Json, tanh: real -> real)
    requires Field(stats, "frames") == None || Field(stats, "frames") == Some(JList([]))
    ensures Analyze(stats, tanh) == None
  {
  }

  /** Only the last frame is read: frames before it have no effect on the result. */
  lemma {:induction false} OnlyLastFrameMatters(
    m: map<string, Json>, earlier: seq<Json>, latest: Json, tanh: real -> real)
    ensures Analyze(JObj(m["frames" := JList(earlier + [latest])]), tanh) == AnalyzeFrame(latest, tanh)
  {
    var stats := JObj(m["frames" := JList(earlier + [latest])]);
    assert HasFrames(stats);
    assert LastFrame(stats) == latest;
  }

  // ----- the win probability -----

  lemma ScoreNegates(goldDiff: int, towerDiff: int, killDiff: int)
    ensures Score(-goldDiff, -towerDiff, -killDiff) == -Score(goldDiff, towerDiff, killDiff)
  {
  }

  /** The blue probability stays within [0, 100] for every score, however extreme. */
  lemma WinProbabilityBounds(score: real, tanh: real -> real)
    requires Saturating(tanh)
    ensures 0.0 <= BlueWinProbability(score, tanh) <= 100.0
    ensures 0.0 <= 100.0 - BlueWinProbability(score, tanh) <= 100.0
  {
    assert -1.0 <= tanh(score * 2.0) <= 1.0;
  }

  /** A score of 0 gives exactly even odds. */
  lemma WinProbabilityAtParity(tanh: real -> real)
    requires Saturating(tanh)
    ensures BlueWinProbability(Score(0, 0, 0), tanh) == 50.0
  {
    SaturatingAtZero(tanh);
  }

  /** Negating the score hands blue the probability red had. */
  lemma WinProbabilityMirror(score: real, tanh: real -> real)
    requires Saturating(tanh)
    ensures BlueWinProbability(-score, tanh) == 100.0 - BlueWinProbability(score, tanh)
  {
    assert (-score) * 2.0 == -(score * 2.0);
    assert tanh(-(score * 2.0)) == -tanh(score * 2.0);
  }

  /** A larger gold, tower or kill lead for blue never lowers blue's probability. */
  lemma WinProbabilityMonotone(
    gold1: int, towers1: int, kills1: int,
    gold2: int, towers2: int, kills2: int,
    tanh: real -> real)
    requires Saturating(tanh)
    requires gold1 <= gold2 && towers1 <= towers2 && kills1 <= kills2
    ensures BlueWinProbability(Score(gold1, towers1, kills1), tanh)
         <= BlueWinProbability(Score(gold2, towers2, kills2), tanh)
  {
    var s1 := Score(gold1, towers1, kills1);
    var s2 := Score(gold2, towers2, kills2);
    assert s1 * 2.0 <= s2 * 2.0;
    assert tanh(s1 * 2.0) <= tanh(s2 * 2.0);
  }

  /** Every analysis reports probabilities in [0, 100] that sum to 100. */
  lemma AnalysisProbabilities(latest: Json, tanh: real -> real)
    requires Saturating(tanh)
    requires AnalyzeFrame(latest, tanh).Some?
    ensures 0.0 <= AnalyzeFrame(latest, tanh).value.blueProb <= 100.0
    ensures 0.0 <= AnalyzeFrame(latest, tanh).value.redProb <= 100.0
    ensures AnalyzeFrame(latest, tanh).value.blueProb + AnalyzeFrame(latest, tanh).value.redProb == 100.0
  {
    var a := AnalyzeFrame(latest, tanh).value;
    WinProbabilityBounds(Score(a.goldDiff, a.blue.towers - a.red.towers, a.blue.kills - a.red.kills), tanh);
  }

  /** Equal gold, towers and kills give a balanced game at exactly 50/50. */
  lemma EvenGameEvenOdds(latest: Json, tanh: real -> real)
    requires Saturating(tanh)
    requires AnalyzeFrame(latest, tanh).Some?
    requires var a := AnalyzeFrame(latest, tanh).value;
      a.blue.gold == a.red.gold && a.blue.towers == a.red.towers && a.blue.kills == a.red.kills
    ensures AnalyzeFrame(latest, tanh).value.goldDiff == 0
    ensures AnalyzeFrame(latest, tanh).value.blueProb == 50.0
    ensures AnalyzeFrame(latest, tanh).value.redProb == 50.0
    ensures AnalyzeFrame(latest, tanh).value.advantage == Balanced
  {
    WinProbabilityAtParity(tanh);
  }

  // ----- swapping the sides -----

  /** The frame with its `blueTeam` and `redTeam` entries exchanged. */
  function SwapTeams(latest: Json): Json {
    match latest
    case JObj(m) =>
      var rest := m - {TeamKey(Blue), TeamKey(Red)};
      var withBlue := if TeamKey(Red) in m then rest[TeamKey(Blue) := m[TeamKey(Red)]] else rest;
      JObj(if TeamKey(Blue) in m then withBlue[TeamKey(Red) := m[TeamKey(Blue)]] else withBlue)
    case _ => latest
  }

  lemma SwapTeamsField(latest: Json, t: Team)
    ensures SwapTeams(latest).JObj? <==> latest.JObj?
    ensures Field(SwapTeams(latest), TeamKey(t)) == Field(latest, TeamKey(Other(t)))
  {
  }

  /**
   * Swapping the teams swaps the reported sides, negates the gold difference,
   * exchanges the two probabilities and mirrors the label.
   */
  lemma SwapTeamsMirrors(latest: Json, tanh: real -> real)
    requires Saturating(tanh)
    ensures AnalyzeFrame(SwapTeams(latest), tanh).Some? <==> AnalyzeFrame(latest, tanh).Some?
    ensures AnalyzeFrame(latest, tanh).Some? ==>
      var a := AnalyzeFrame(latest, tanh).value;
      var b := AnalyzeFrame(SwapTeams(latest), tanh).value;
      && b.blue == a.red && b.red == a.blue
      && b.goldDiff == -a.goldDiff
      && b.blueProb == a.redProb && b.redProb == a.blueProb
      && b.advantage == Mirror(a.advantage)
  {
    SwapTeamsField(latest, Blue);
    SwapTeamsField(latest, Red);
    assert ReadTeam(SwapTeams(latest), Blue) == ReadTeam(latest, Red);
    assert ReadTeam(SwapTeams(latest), Red) == ReadTeam(latest, Blue);
    if AnalyzeFrame(latest, tanh).Some? {
      CompareMirrors(ReadTeam(latest, Blue).value, ReadTeam(latest, Red).value, tanh);
    }
  }

  lemma CompareMirrors(blue: Side, red: Side, tanh: real -> real)
    requires Saturating(tanh)
    ensures var a, b := Compare(blue, red, tanh), Compare(red, blue, tanh);
      && b.goldDiff == -a.goldDiff
      && b.blueProb == a.redProb && b.redProb == a.blueProb
      && b.advantage == Mirror(a.advantage)
  {
    var goldDiff := blue.gold - red.gold;
    ScoreNegates(goldDiff, blue.towers - red.towers, blue.kills - red.kills);
    WinProbabilityMirror(Score(goldDiff, blue.towers - red.towers, blue.kills - red.kills), tanh);
    ClassifyMirror(goldDiff);
  }

  // ----- frames a caller sees -----

  /**
   * A frame with no team objects at all is still analysed: every counter is 0,
   * the odds are 50/50 and the game is balanced.
   */
  lemma EmptyFrameIsEven(latest: Json, tanh: real -> real)
    requires Saturating(tanh)
    requires latest.JObj? && TeamKey(Blue) !in latest.fields && TeamKey(Red) !in latest.fields
    ensures AnalyzeFrame(latest, tanh) == Some(Analysis(ZeroSide, ZeroSide, 0, 50.0, 50.0, Balanced))
  {
    WinProbabilityAtParity(tanh);
  }

  /** Equal gold is not needed for even odds: one extra kill offsets 2500 gold in the score. */
  lemma KillOffsetsGold()
    ensures Score(-2500, 0, 1) == 0.0
  {
  }

  /**
   * Blue 15000 gold and 5 kills against red 12000 gold and 3 kills: a gold
   * difference of 3000, which is a lead and not yet dominance.
   */
  lemma ThreeThousandIsALead(tanh: real -> real)
    ensures var frame := JObj(map[
        TeamKey(Blue) := JObj(map[StatKey(Gold) := JInt(15000), StatKey(Kills) := JInt(5)]),
        TeamKey(Red) := JObj(map[StatKey(Gold) := JInt(12000), StatKey(Kills) := JInt(3)])]);
      && AnalyzeFrame(frame, tanh).Some?
      && AnalyzeFrame(frame, tanh).value.goldDiff == 3000
      && AnalyzeFrame(frame, tanh).value.advantage == BlueLeading(3000)
      && AnalyzeFrame(frame, tanh).value.blue == Side(15000, 5, 0, JInt(0), JInt(0))
  {
  }
}

=== FILE: handlers.dfy ===
/**
 * The pure fragments of the Telegram handlers: the callback data of the
 * "analyse" buttons, the `/live` listing, and the search for the game in
 * progress in `analyze_callback`.
 */
module Handlers {
  import opened Wrappers
  import opened Json
  import opened Text

  // ----- callback data -----

  /** Prefix of every button's callback data; `^analyze_` routes the press back to the analyser. */
  const CallbackTag: string := "analyze_"

  /** The callback data of the button for a string event id: the tag, then the id. */
  function CallbackData(eventId: string): string {
    CallbackTag + eventId
  }

  /** The event id recovered from callback data by deleting every occurrence of the tag. */
  function ParseCallback(data: string): string {
    RemoveAll(data, CallbackTag)
  }

  /**
   * Parsing a button's data gives back its event id exactly when the id does not
   * itself contain `analyze_`; the data always matches the handler's `^analyze_`.
   */
  lemma CallbackRoundTrip(eventId: string)
    ensures CallbackTag <= CallbackData(eventId)
    ensures ParseCallback(CallbackData(eventId)) == eventId <==> !IsSubstring(CallbackTag, eventId)
  {
    var data := CallbackData(eventId);
    assert CallbackTag <= data;
    assert data[|CallbackTag|..] == eventId;
    assert ParseCallback(data) == RemoveAll(eventId, CallbackTag);
    RemoveAllShrinks(eventId, CallbackTag);
    if !IsSubstring(CallbackTag, eventId) {
      RemoveAllAbsent(eventId, CallbackTag);
    }
  }

  /** An id that contains the tag loses it: the press is routed to a different event. */
  lemma TaggedIdIsNotRecovered()
    ensures ParseCallback(CallbackData("analyze_7")) == "7"
  {
    var data := CallbackData("analyze_7");
    assert CallbackTag <= data;
    assert data[|CallbackTag|..] == "analyze_7";
    assert CallbackTag <= "analyze_7";
    assert "analyze_7"[|CallbackTag|..] == "7";
    assert !(CallbackTag <= "7");
    assert "7"[1..] == "";
    assert RemoveAll("7", CallbackTag) == ['7'] + RemoveAll("", CallbackTag);
  }

  // ----- the /live listing -----

  /** At most this many matches of the live list are considered for buttons. */
  const MaxListed: nat := 10

  /** An "analyse" button: the two team codes of its label and the event id of its callback data. */
  datatype Button = Button(team1: Json, team2: Json, eventId: Json)

  /** `len(v)`: defined for strings, lists and dicts. */
  function Len(v: Json): Option<nat> {
    match v
    case JStr(s) => Some(|s|)
    case JList(xs) => Some(|xs|)
    case JObj(m) => Some(|m|)
    case _ => None
  }

  /**
   * `v[k]` followed by `.get`: only a list item can be a dict (an item of a string
   * is a string, and a dict has no integer keys).
   */
  function Item(v: Json, k: nat): Option<Json> {
    match v
    case JList(xs) => if k < |xs| then Some(xs[k]) else None
    case _ => None
  }

  /**
   * One iteration of the listing loop: `None` when it raises, `Some(None)` when the
   * match has fewer than two teams, `Some(Some(b))` when it gets button `b`.
   */
  function ListEntry(m: Json): Option<Option<Button>> {
    var league :- Get(m, "league", EmptyObj);
    var leagueName :- Get(league, "name", JStr("Unknown"));
    var matchObj :- Get(m, "match", EmptyObj);
    var teams :- Get(matchObj, "teams", JList([]));
    var n :- Len(teams);
    if n < 2 then Some(None)
    else
      var first :- Item(teams, 0);
      var code1 :- Get(first, "code", JStr("T1"));
      var second :- Item(teams, 1);
      var code2 :- Get(second, "code", JStr("T2"));
      var eventId :- Get(m, "id", JNull);
      Some(Some(Button(code1, code2, eventId)))
  }

  /** The loop over the considered matches; `None` when some iteration raised. */
  function ListButtons(ms: seq<Json>): Option<seq<Button>>
    decreases |ms|
  {
    if |ms| == 0 then Some([])
    else
      var entry :- ListEntry(ms[0]);
      var rest :- ListButtons(ms[1..]);
      Some(if entry.Some? then [entry.value] + rest else rest)
  }

  function Min(a: nat, b: nat): nat {
    if a < b then a else b
  }

  /** The keyboard of `/live`: buttons for `matches[:10]`, or `None` for the error message. */
  function Listing(matches: seq<Json>): Option<seq<Button>> {
    ListButtons(matches[..Min(|matches|, MaxListed)])
  }

  // ----- reference definitions -----

  /** The `teams` entry of a match, `[]` when missing. */
  function TeamsOf(m: Json): Json {
    Field(Field(m, "match").GetOr(EmptyObj), "teams").GetOr(JList([]))
  }

  /** A match the loop can inspect without raising, up to the team-count test. */
  ghost predicate Inspectable(m: Json) {
    && m.JObj?
    && Field(m, "league").GetOr(EmptyObj).JObj?
    && Field(m, "match").GetOr(EmptyObj).JObj?
    && Len(TeamsOf(m)).Some?
  }

  /** A match that gets a button: at least two teams, the first two of them dicts. */
  ghost predicate HasTwoTeams(m: Json) {
    && Inspectable(m)
    && TeamsOf(m).JList?
    && |TeamsOf(m).items| >= 2
    && TeamsOf(m).items[0].JObj?
    && TeamsOf(m).items[1].JObj?
  }

  /** The button such a match gets: its team codes, 'T1'/'T2' when missing, and its id. */
  ghost function ButtonFor(m: Json): Button
    requires HasTwoTeams(m)
  {
    Button(
      Field(TeamsOf(m).items[0], "code").GetOr(JStr("T1")),
      Field(TeamsOf(m).items[1], "code").GetOr(JStr("T2")),
      Field(m, "id").GetOr(JNull))
  }

  /** The buttons of the matches in `ms` that have two teams, one each, in order. */
  ghost function ButtonsOf(ms: seq<Json>): seq<Button>
    decreases |ms|
  {
    if |ms| == 0 then []
    else (if HasTwoTeams(ms[0]) then [ButtonFor(ms[0])] else []) + ButtonsOf(ms[1..])
  }

  /** Number of matches in `ms` that get a button. */
  ghost function CountListed(ms: seq<Json>): nat
    decreases |ms|
  {
    if |ms| == 0 then 0
    else (if HasTwoTeams(ms[0]) then 1 else 0) + CountListed(ms[1..])
  }

  // ----- properties -----

  /**
   * One iteration: a button exactly for a match with two dict teams, skipped when
   * fewer than two teams are listed, an exception otherwise.
   */
  lemma ListEntrySpec(m: Json)
    ensures ListEntry(m) == (if HasTwoTeams(m) then Some(Some(ButtonFor(m)))
                             else if Inspectable(m) && Len(TeamsOf(m)).value < 2 then Some(None)
                             else None)
  {
  }

  /** The loop raises exactly when one of its iterations does. */
  lemma {:induction false} ListButtonsRaises(ms: seq<Json>)
    ensures ListButtons(ms).None? <==> exists j :: 0 <= j < |ms| && ListEntry(ms[j]).None?
    decreases |ms|
  {
    if |ms| > 0 {
      ListButtonsRaises(ms[1..]);
      if ListEntry(ms[0]).Some? && ListButtons(ms[1..]).None? {
        var j :| 0 <= j < |ms[1..]| && ListEntry(ms[1..][j]).None?;
        assert ms[j + 1] == ms[1..][j];
      }
      if exists j :: 0 <= j < |ms| && ListEntry(ms[j]).None? {
        var j :| 0 <= j < |ms| && ListEntry(ms[j]).None?;
        if j > 0 {
          assert ms[1..][j - 1] == ms[j];
        }
      }
    }
  }

  /** When the loop does not raise, it yields exactly one button per two-team match, in match order. */
  lemma {:induction false} ListButtonsExact(ms: seq<Json>)
    ensures ListButtons(ms).Some? ==> ListButtons(ms).value == ButtonsOf(ms)
    decreases |ms|
  {
    if |ms| > 0 && ListButtons(ms).Some? {
      ListEntrySpec(ms[0]);
      ListButtonsExact(ms[1..]);
    }
  }

  /** One button per match with two teams. */
  lemma {:induction false} ListButtonsCount(ms: seq<Json>)
    ensures ListButtons(ms).Some? ==> |ListButtons(ms).value| == CountListed(ms)
    decreases |ms|
  {
    if |ms| > 0 && ListButtons(ms).Some? {
      ListEntrySpec(ms[0]);
      ListButtonsCount(ms[1..]);
    }
  }

  /** Every match with two teams gets its button. */
  lemma {:induction false} ListButtonsComplete(ms: seq<Json>)
    ensures ListButtons(ms).Some? ==>
      forall j :: 0 <= j < |ms| && HasTwoTeams(ms[j]) ==> ButtonFor(ms[j]) in ListButtons(ms).value
    decreases |ms|
  {
    if |ms| > 0 && ListButtons(ms).Some? {
      ListEntrySpec(ms[0]);
      ListButtonsComplete(ms[1..]);
      var rest := ListButtons(ms[1..]).value;
      assert forall b :: b in rest ==> b in ListButtons(ms).value;
      forall j | 0 <= j < |ms| && HasTwoTeams(ms[j])
        ensures ButtonFor(ms[j]) in ListButtons(ms).value
      {
        if j > 0 {
          assert ms[j] == ms[1..][j - 1];
        }
      }
    }
  }

  /** Every button belongs to a match with two teams. */
  lemma {:induction false} ListButtonsSound(ms: seq<Json>)
    ensures ListButtons(ms).Some? ==>
      forall b :: b in ListButtons(ms).value ==>
        exists j :: 0 <= j < |ms| && HasTwoTeams(ms[j]) && b == ButtonFor(ms[j])
    decreases |ms|
  {
    if |ms| > 0 && ListButtons(ms).Some? {
      ListEntrySpec(ms[0]);
      ListButtonsSound(ms[1..]);
      var rest := ListButtons(ms[1..]).value;
      forall b | b in ListButtons(ms).value
        ensures exists j :: 0 <= j < |ms| && HasTwoTeams(ms[j]) && b == ButtonFor(ms[j])
      {
        if b in rest {
          var j :| 0 <= j < |ms[1..]| && HasTwoTeams(ms[1..][j]) && b == ButtonFor(ms[1..][j]);
          assert ms[j + 1] == ms[1..][j];
        } else {
          assert HasTwoTeams(ms[0]) && b == ButtonFor(ms[0]);
        }
      }
    }
  }

  /**
   * The `/live` keyboard: at most 10 buttons, one for every match among the first
   * 10 that has at least two teams, and the error message when one of those 10
   * makes the loop raise.
   */
  lemma ListingSpec(matches: seq<Json>)
    ensures var considered := matches[..Min(|matches|, MaxListed)];
      && (Listing(matches).None? <==>
            exists j :: 0 <= j < |matches| && j < MaxListed && ListEntry(matches[j]).None?)
      && (Listing(matches).Some? ==>
            && |Listing(matches).value| <= MaxListed
            && Listing(matches).value == ButtonsOf(considered)
            && |Listing(matches).value| == CountListed(considered)
            && (forall j :: 0 <= j < |matches| && j < MaxListed && HasTwoTeams(matches[j]) ==>
                  ButtonFor(matches[j]) in Listing(matches).value)
            && (forall b :: b in Listing(matches).value ==>
                  exists j :: 0 <= j < |matches| && j < MaxListed && HasTwoTeams(matches[j]) && b == ButtonFor(matches[j])))
  {
    var considered := matches[..Min(|matches|, MaxListed)];
    ListButtonsRaises(considered);
    ListButtonsExact(considered);
    ListButtonsCount(considered);
    ListButtonsComplete(considered);
    ListButtonsSound(considered);
    CountListedBound(considered);
    assert forall j :: 0 <= j < |considered| ==> considered[j] == matches[j];
  }

  lemma {:induction false} CountListedBound(ms: seq<Json>)
    ensures CountListed(ms) <= |ms|
    decreases |ms|
  {
    if |ms| > 0 {
      CountListedBound(ms[1..]);
    }
  }

  /** Matches after the tenth never affect the keyboard. */
  lemma ListingIgnoresTail(matches: seq<Json>, more: seq<Json>)
    requires |matches| >= MaxListed
    ensures Listing(matches + more) == Listing(matches)
  {
    assert (matches + more)[..MaxListed] == matches[..MaxListed];
  }

  // ----- the game in progress -----

  /** Outcome of the search for the game being played: its position, none, or an exception. */
  datatype GameSearch = Found(index: nat, game: Json) | NotFound | Raises

  /** A game whose `state` is `'inProgress'`. */
  ghost predicate IsInProgress(g: Json) {
    Field(g, "state") == Some(InProgress)
  }

  /** A game the generator passes over: a dict that is not in progress. */
  ghost predicate PassedOver(g: Json) {
    g.JObj? && !IsInProgress(g)
  }

  /** The generator over a list of games; it stops at the first game in progress. */
  function FirstInProgressIn(games: seq<Json>): (r: GameSearch)
    ensures r.Found? ==>
      && r.index < |games| && games[r.index] == r.game && IsInProgress(r.game)
      && forall j :: 0 <= j < r.index ==> PassedOver(games[j])
    ensures r.NotFound? <==> forall j :: 0 <= j < |games| ==> PassedOver(games[j])
    ensures r.Raises? <==>
      exists i :: 0 <= i < |games| && !games[i].JObj? && forall j :: 0 <= j < i ==> PassedOver(games[j])
    decreases |games|
  {
    if |games| == 0 then NotFound
    else
      match Get(games[0], "state", JNull)
      case None => Raises
      case Some(state) =>
        if state == InProgress then Found(0, games[0])
        else
          match FirstInProgressIn(games[1..])
          case Found(i, g) => Found(i + 1, g)
          case other => other
  }

  /**
   * The search over `match.get('games', [])` of any JSON type: iterating a dict
   * yields its string keys and a string its characters, neither of which has `.get`.
   */
  function FirstInProgress(games: Json): (r: GameSearch)
    ensures games.JList? ==> r == FirstInProgressIn(games.items)
    ensures !games.JList? ==> (r.NotFound? <==> !Truthy(games) && !games.JNull? && !games.JInt?)
    ensures !games.JList? ==> !r.Found?
  {
    match games
    case JList(gs) => FirstInProgressIn(gs)
    case JObj(m) => if |m| == 0 then NotFound else Raises
    case JStr(s) => if |s| == 0 then NotFound else Raises
    case _ => Raises   // None and numbers are not iterable
  }
}

=== FILE: json.dfy ===
/**
 * Decoded JSON values as the bot sees them after `response.json()`, together with
 * the few Python operations the analysed code applies to them. An operation that
 * would raise in Python (AttributeError, TypeError, KeyError) yields `None`.
 */
module Json {
  import opened Wrappers

  datatype Json =
    | JNull
    | JInt(i: int)
    | JStr(s: string)
    | JList(items: seq<Json>)
    | JObj(fields: map<string, Json>)

  /** Python truthiness (`if not v`). */
  predicate Truthy(v: Json) {
    match v
    case JNull => false
    case JInt(i) => i != 0
    case JStr(s) => |s| > 0
    case JList(xs) => |xs| > 0
    case JObj(m) => |m| > 0
  }

  /** `obj.get(key, default)`: only a dict has `.get`. */
  function Get(obj: Json, key: string, default: Json): Option<Json> {
    match obj
    case JObj(m) => Some(if key in m then m[key] else default)
    case _ => None
  }

  /** The `state` value of an event or game that is being played. */
  const InProgress: Json := JStr("inProgress")

  /** The empty dict `{}`, the default of every nested `.get` in the source. */
  const EmptyObj: Json := JObj(map[])

  /** The value stored under `key`, when `obj` is a dict that has it. */
  function Field(obj: Json, key: string): Option<Json> {
    if obj.JObj? && key in obj.fields then Some(obj.fields[key]) else None
  }
}

=== FILE: live_filter.dfy ===
/**
 * The filter inside `EsportsAPI.get_live_matches`: keep the events that are in
 * progress and belong to one of the main leagues. An exception while inspecting
 * any event aborts the whole call, which then returns the empty list.
 */
module LiveFilter {
  import opened Wrappers
  import opened Json
  import opened Text

  /** The keys of `MAIN_LEAGUES`, as written in the source. */
  const MainLeagues: seq<string> := ["LCK", "LPL", "LEC", "LCS", "CBLOL"]

  /** Some main-league key, lower-cased, occurs in the lower-cased slug. */
  predicate IsMainSlug(slug: string) {
    exists i | 0 <= i < |MainLeagues| :: Contains(Lower(slug), Lower(MainLeagues[i]))
  }

  /**
   * The loop body for one event: `None` when it raises, otherwise whether the
   * event is appended. The league is only looked at for events in progress.
   */
  function Verdict(event: Json): Option<bool> {
    var state :- Get(event, "state", JNull);
    if state != InProgress then Some(false)
    else
      var league :- Get(event, "league", EmptyObj);
      var slug :- Get(league, "slug", JStr(""));
      match slug
      case JStr(s) => Some(IsMainSlug(s))
      case _ => None   // .lower() of a non-string
  }

  /** The loop over all events; `None` when some event made it raise. */
  function FilterMain(events: seq<Json>): Option<seq<Json>>
    decreases |events|
  {
    if |events| == 0 then Some([])
    else
      var keep :- Verdict(events[0]);
      var rest :- FilterMain(events[1..]);
      Some(if keep then [events[0]] + rest else rest)
  }

  /** `get_live_matches` after the response is decoded: the filtered list, or `[]` on an exception. */
  function LiveMatches(events: seq<Json>): seq<Json> {
    FilterMain(events).GetOr([])
  }

  // ----- reference definitions -----

  /** The league slug an in-progress event exposes: `''` when the league or the slug is missing. */
  function SlugOf(event: Json): Option<Json> {
    match Field(event, "league")
    case None => Some(JStr(""))
    case Some(league) => if league.JObj? then Some(Field(league, "slug").GetOr(JStr(""))) else None
  }

  /** The lower-case league tags the bot follows. */
  const LeagueTags: set<string> := {"lck", "lpl", "lec", "lcs", "cblol"}

  /** An event the bot lists: in progress, and its lower-cased slug contains a tag. */
  ghost predicate IsLiveMainEvent(event: Json) {
    && Field(event, "state") == Some(InProgress)
    && SlugOf(event).Some? && SlugOf(event).value.JStr?
    && exists tag :: tag in LeagueTags && IsSubstring(tag, Lower(SlugOf(event).value.s))
  }

  /** An event the loop raises on: not a dict, or in progress with a non-dict league or a non-string slug. */
  ghost predicate IsMalformedEvent(event: Json) {
    || !event.JObj?
    || (Field(event, "state") == Some(InProgress) && (SlugOf(event).None? || !SlugOf(event).value.JStr?))
  }

  // ----- properties -----

  lemma LowerTags()
    ensures forall i | 0 <= i < |MainLeagues| :: Lower(MainLeagues[i]) in LeagueTags
    ensures forall tag | tag in LeagueTags :: exists i | 0 <= i < |MainLeagues| :: Lower(MainLeagues[i]) == tag
  {
    assert Lower(MainLeagues[0]) == "lck";
    assert Lower(MainLeagues[1]) == "lpl";
    assert Lower(MainLeagues[2]) == "lec";
    assert Lower(MainLeagues[3]) == "lcs";
    assert Lower(MainLeagues[4]) == "cblol";
  }

  /** The search over `MAIN_LEAGUES` is the substring test against the lower-case tags. */
  lemma IsMainSlugSpec(slug: string)
    ensures IsMainSlug(slug) <==> exists tag :: tag in LeagueTags && IsSubstring(tag, Lower(slug))
  {
    LowerTags();
    forall i | 0 <= i < |MainLeagues|
      ensures Contains(Lower(slug), Lower(MainLeagues[i])) <==> IsSubstring(Lower(MainLeagues[i]), Lower(slug))
    {
      ContainsIsSubstring(Lower(slug), Lower(MainLeagues[i]));
    }
    if exists tag :: tag in LeagueTags && IsSubstring(tag, Lower(slug)) {
      var tag :| tag in LeagueTags && IsSubstring(tag, Lower(slug));
      var i :| 0 <= i < |MainLeagues| && Lower(MainLeagues[i]) == tag;
      assert Contains(Lower(slug), Lower(MainLeagues[i]));
    }
  }

  /** One event is kept exactly when it is a live main-league event, and dropped silently unless malformed. */
  lemma VerdictSpec(event: Json)
    ensures Verdict(event) == Some(true) <==> IsLiveMainEvent(event)
    ensures Verdict(event).None? <==> IsMalformedEvent(event)
  {
    if event.JObj? && Field(event, "state") == Some(InProgress) && SlugOf(event).Some? && SlugOf(event).value.JStr? {
      IsMainSlugSpec(SlugOf(event).value.s);
    }
  }

  /** `sub` is `s` with some elements left out, the rest in their original order. */
  ghost predicate IsSubsequence(sub: seq<Json>, s: seq<Json>)
    decreases |s|
  {
    if |sub| == 0 then true
    else if |s| == 0 then false
    else if sub[0] == s[0] then IsSubsequence(sub[1..], s[1..])
    else IsSubsequence(sub, s[1..])
  }

  /** The filter raises exactly when some event is malformed. */
  lemma {:induction false} FilterMainRaises(events: seq<Json>)
    ensures FilterMain(events).None? <==> exists i :: 0 <= i < |events| && IsMalformedEvent(events[i])
    decreases |events|
  {
    if |events| > 0 {
      VerdictSpec(events[0]);
      FilterMainRaises(events[1..]);
      if FilterMain(events[1..]).None? {
        var i :| 0 <= i < |events[1..]| && IsMalformedEvent(events[1..][i]);
        assert events[i + 1] == events[1..][i];
      }
      if exists i :: 0 <= i < |events| && IsMalformedEvent(events[i]) {
        var i :| 0 <= i < |events| && IsMalformedEvent(events[i]);
        if i > 0 {
          assert events[1..][i - 1] == events[i];
        }
      }
    }
  }

  /** What the filter keeps are live main-league events, in input order. */
  lemma {:induction false} FilterMainOrdered(events: seq<Json>)
    ensures FilterMain(events).Some? ==>
      && IsSubsequence(FilterMain(events).value, events)
      && (forall e :: e in FilterMain(events).value ==> IsLiveMainEvent(e))
    decreases |events|
  {
    if |events| > 0 && FilterMain(events).Some? {
      var e := events[0];
      VerdictSpec(e);
      FilterMainOrdered(events[1..]);
      var rest := FilterMain(events[1..]).value;
      var kept := FilterMain(events).value;
      if Verdict(e) == Some(true) {
        assert kept == [e] + rest;
        assert kept[1..] == rest;
      } else {
        assert kept == rest;
        if |kept| > 0 {
          // a kept event is live, so it cannot be the dropped head
          assert kept[0] in rest;
          assert kept[0] != e;
        }
      }
    }
  }

  /** Every live main-league event is kept, as many times as it occurs. */
  lemma {:induction false} FilterMainComplete(events: seq<Json>)
    ensures FilterMain(events).Some? ==>
      forall e :: multiset(FilterMain(events).value)[e] == if IsLiveMainEvent(e) then multiset(events)[e] else 0
    decreases |events|
  {
    if |events| > 0 && FilterMain(events).Some? {
      var e := events[0];
      VerdictSpec(e);
      FilterMainComplete(events[1..]);
      var rest := FilterMain(events[1..]).value;
      var kept := FilterMain(events).value;
      assert events == [e] + events[1..];
      assert multiset(events) == multiset{e} + multiset(events[1..]);
      if Verdict(e) == Some(true) {
        assert multiset(kept) == multiset{e} + multiset(rest);
      } else {
        assert kept == rest;
      }
    }
  }

  /**
   * The filter raises exactly when some event is malformed; otherwise it keeps
   * the live main-league events, every one of them with its multiplicity, in
   * input order, and nothing else.
   */
  lemma FilterMainSpec(events: seq<Json>)
    ensures FilterMain(events).None? <==> exists i :: 0 <= i < |events| && IsMalformedEvent(events[i])
    ensures FilterMain(events).Some? ==>
      var kept := FilterMain(events).value;
      && IsSubsequence(kept, events)
      && (forall e :: e in kept ==> IsLiveMainEvent(e))
      && (forall i :: 0 <= i < |events| && IsLiveMainEvent(events[i]) ==> events[i] in kept)
      && (forall e :: multiset(kept)[e] == if IsLiveMainEvent(e) then multiset(events)[e] else 0)
  {
    FilterMainRaises(events);
    FilterMainOrdered(events);
    FilterMainComplete(events);
    if FilterMain(events).Some? {
      var kept := FilterMain(events).value;
      forall i | 0 <= i < |events| && IsLiveMainEvent(events[i])
        ensures events[i] in kept
      {
        assert events[i] in multiset(events);
        assert multiset(kept)[events[i]] > 0;
      }
    }
  }

  /** On a malformed event the call answers with no events at all. */
  lemma LiveMatchesOnError(events: seq<Json>, i: int)
    requires 0 <= i < |events| && IsMalformedEvent(events[i])
    ensures LiveMatches(events) == []
  {
    FilterMainSpec(events);
  }
}

=== FILE: saturation.dfy ===
/**
 * The shape of `math.tanh` that the win probability relies on. The model does not
 * fix a particular function: every property of the probability is proved for any
 * `f` that is bounded by 1 in absolute value, odd and monotone.
 */
module Saturation {

  ghost predicate Saturating(f: real -> real) {
    && (forall x :: -1.0 <= f(x) <= 1.0)
    && (forall x :: f(-x) == -f(x))
    && (forall x, y :: x <= y ==> f(x) <= f(y))
  }

  /** An odd function vanishes at zero. */
  lemma SaturatingAtZero(f: real -> real)
    requires Saturating(f)
    ensures f(0.0) == 0.0
  {
    assert f(-0.0) == -f(0.0);
  }

  function AbsReal(x: real): real {
    if x < 0.0 then -x else x
  }

  /** x / (1 + |x|): a concrete saturating function, showing the hypothesis can be met. */
  function Softsign(x: real): real {
    x / (1.0 + AbsReal(x))
  }

  lemma SoftsignBounded(x: real)
    ensures -1.0 <= Softsign(x) <= 1.0
  {
    var d := 1.0 + AbsReal(x);
    assert d > 0.0;
    assert -d <= x <= d;
    assert Softsign(x) * d == x;
  }

  lemma SoftsignOdd(x: real)
    ensures Softsign(-x) == -Softsign(x)
  {
    assert AbsReal(-x) == AbsReal(x);
    var d := 1.0 + AbsReal(x);
    assert (-x) / d == -(x / d);
  }

  lemma NonNegativeFactor(a: real, p: real)
    requires p > 0.0 && a * p >= 0.0
    ensures a >= 0.0
  {
    assert a == (a * p) / p;
  }

  lemma SoftsignMonotone(x: real, y: real)
    requires x <= y
    ensures Softsign(x) <= Softsign(y)
  {
    var dx := 1.0 + AbsReal(x);
    var dy := 1.0 + AbsReal(y);
    var sx := Softsign(x);
    var sy := Softsign(y);
    assert sx * dx == x;
    assert sy * dy == y;
    // sx <= sy  <==>  x * dy <= y * dx, since both denominators are positive
    assert x * dy <= y * dx by {
      if 0.0 <= x {
        assert x * dy == x + x * y;
        assert y * dx == y + x * y;
      } else if y < 0.0 {
        assert x * dy == x - x * y;
        assert y * dx == y - x * y;
      } else {
        assert x * dy == x + x * y;
        assert y * dx == y - x * y;
        assert x * y <= 0.0;
      }
    }
    var p := dx * dy;
    assert p > 0.0 by {
      assert dx >= 1.0 && dy >= 1.0;
      assert dx * dy >= dy;
    }
    assert sx * p == x * dy by {
      assert sx * p == (sx * dx) * dy;
    }
    assert sy * p == y * dx by {
      assert sy * p == (sy * dy) * dx;
    }
    NonNegativeFactor(sy - sx, p);
  }

  lemma SoftsignSaturating()
    ensures Saturating(Softsign)
  {
    forall x ensures -1.0 <= Softsign(x) <= 1.0 {
      SoftsignBounded(x);
    }
    forall x ensures Softsign(-x) == -Softsign(x) {
      SoftsignOdd(x);
    }
    forall x, y | x <= y ensures Softsign(x) <= Softsign(y) {
      SoftsignMonotone(x, y);
    }
  }
}

=== FILE: text.dfy ===
/**
 * String operations the bot uses: `str.lower()` (ASCII letters only), the
 * substring test `needle in hay`, and `str.replace(pattern, '')`.
 */
module Text {

  function LowerChar(c: char): char {
    if 'A' <= c <= 'Z' then (c as int + 32) as char else c
  }

  /** `s.lower()`, restricted to ASCII letters. */
  function Lower(s: string): string {
    seq(|s|, i requires 0 <= i < |s| => LowerChar(s[i]))
  }

  /** `needle` occurs in `hay` starting at index `i`. */
  ghost predicate OccursAt(needle: string, hay: string, i: int) {
    0 <= i && i + |needle| <= |hay| && hay[i..i + |needle|] == needle
  }

  /** Reference meaning of Python's `needle in hay`. */
  ghost predicate IsSubstring(needle: string, hay: string) {
    exists i :: OccursAt(needle, hay, i)
  }

  /** Left-to-right search used by the model for `needle in hay`. */
  function Contains(hay: string, needle: string): bool
    decreases |hay|
  {
    if needle <= hay then true
    else if |hay| == 0 then false
    else Contains(hay[1..], needle)
  }

  lemma OccursShift(needle: string, hay: string, i: int)
    requires |hay| > 0 && 0 <= i
    ensures OccursAt(needle, hay[1..], i) <==> OccursAt(needle, hay, i + 1)
  {
    if 0 <= i && i + |needle| <= |hay| - 1 {
      assert hay[1..][i..i + |needle|] == hay[i + 1..i + 1 + |needle|];
    }
  }

  /** The search agrees with the reference definition of substring containment. */
  lemma {:induction false} ContainsIsSubstring(hay: string, needle: string)
    ensures Contains(hay, needle) <==> IsSubstring(needle, hay)
    decreases |hay|
  {
    if needle <= hay {
      assert hay[0..|needle|] == needle;
      assert OccursAt(needle, hay, 0);
    } else if |hay| == 0 {
      assert |needle| > 0;
      assert forall i :: !OccursAt(needle, hay, i);
    } else {
      ContainsIsSubstring(hay[1..], needle);
      if IsSubstring(needle, hay) {
        var i :| OccursAt(needle, hay, i);
        assert i != 0;
        OccursShift(needle, hay, i - 1);
      }
      if IsSubstring(needle, hay[1..]) {
        var j :| OccursAt(needle, hay[1..], j);
        OccursShift(needle, hay, j);
      }
    }
  }

  /**
   * `s.replace(pattern, '')`: deletes the non-overlapping occurrences of
   * `pattern` found scanning from the left.
   */
  function RemoveAll(s: string, pattern: string): string
    requires |pattern| > 0
    decreases |s|
  {
    if |s| == 0 then ""
    else if pattern <= s then RemoveAll(s[|pattern|..], pattern)
    else [s[0]] + RemoveAll(s[1..], pattern)
  }

  /** Removing never lengthens a string, and it shortens every string that holds the pattern. */
  lemma {:induction false} RemoveAllShrinks(s: string, pattern: string)
    requires |pattern| > 0
    ensures |RemoveAll(s, pattern)| <= |s|
    ensures IsSubstring(pattern, s) ==> |RemoveAll(s, pattern)| < |s|
    decreases |s|
  {
    if |s| == 0 {
      assert forall i :: !OccursAt(pattern, s, i);
    } else if pattern <= s {
      RemoveAllShrinks(s[|pattern|..], pattern);
    } else {
      RemoveAllShrinks(s[1..], pattern);
      if IsSubstring(pattern, s) {
        var i :| OccursAt(pattern, s, i);
        assert s[0..|pattern|] == s[..|pattern|];
        assert i != 0;
        OccursShift(pattern, s, i - 1);
      }
    }
  }

  /** A string without the pattern comes through unchanged. */
  lemma {:induction false} RemoveAllAbsent(s: string, pattern: string)
    requires |pattern| > 0
    requires !IsSubstring(pattern, s)
    ensures RemoveAll(s, pattern) == s
    decreases |s|
  {
    if |s| > 0 {
      assert !OccursAt(pattern, s, 0);
      assert !(pattern <= s) by {
        if |pattern| <= |s| {
          assert s[0..|pattern|] == s[..|pattern|];
        }
      }
      forall j | 0 <= j
        ensures !OccursAt(pattern, s[1..], j)
      {
        OccursShift(pattern, s, j);
      }
      RemoveAllAbsent(s[1..], pattern);
      assert s == [s[0]] + s[1..];
    }
  }
}

=== FILE: wrappers.dfy ===
/** Optional values. `None` also stands for "the Python code raised inside its `try` block". */
module Wrappers {

  datatype Option<+T> = None | Some(value: T) {

    predicate IsFailure() {
      None?
    }

    function PropagateFailure<U>(): Option<U>
      requires None?
    {
      None
    }

    function Extract(): T
      requires Some?
    {
      value
    }

    function GetOr(default: T): T {
      match this
      case Some(v) => v
      case None => default
    }
  }
}
